=== FILE: README.md ===
# Jewelry storefront: admin CRUD and cart state, modelled in Dafny

The application has two React screens. The admin product-management screen
(`src/pages/Home.jsx`) loads the product list from a REST endpoint. It adds,
edits and deletes products through modal forms, and it keeps a client-side
candidate id `nextId`. The storefront (`src/pages/Products.jsx`) shows a
fixed catalog and a cart dropdown. That cart lives in a shared Redux store.
The screen derives a total, per-line subtotals and a badge count from it.

This project models the pure state transitions inside those event handlers.
Each screen's `useState` slots form one immutable record. Each handler is a
pure function from the old record to the new one. A network response is a
parameter of that function: `None` or `false` stands for a request that
threw. The source's catch blocks only log (and, on the storefront, alert),
so in that case the state is left unchanged.

Modules:

- `Common` (`common.dfy`): `Option`, which covers JavaScript `null`/`undefined` and missing responses.
- `ProductList` (`product_list.dfy`): the product record and the list operations the admin handlers use. These are `Math.max` over ids, `find` by id, `map` replace-by-id and `filter` remove-by-id.
- `AdminScreen` (`admin_screen.dfy`): the admin screen's state and handlers. It also defines the invariant `Fresh`: the candidate id is above every listed id.
- `Cart` (`cart.dfy`): the catalog constant, cart lines, the `reduce` total, line subtotals and the badge count.
- `CartScreen` (`cart_screen.dfy`): the dropdown toggle and the remove-confirmation flow. Dispatched store actions are returned as values.

Modelling choices:

- The edit draft keeps JavaScript truthiness. It starts as a copy of a listed record. A record's price is a number, or text: a saved edit sends the input's text (`Home.jsx:84`, `Home.jsx:116`), and the server's echo replaces the list entry. So a numeric price of `0` counts as missing, while a price echoed back as the text `"0"` is truthy and passes (`ReopenThenSaveRequest`). A property the copied object lacks is `Absent`. This covers the copy `{ ...undefined }` made when the id is not listed, and `{ ...null }` when a field is typed with no draft.
- The add form holds only strings, because all its values come from inputs. "Present" means non-empty there.
- Confirming an admin delete with no pending id compares ids against `null`, so the filter keeps every product. Confirming a cart removal with no pending line throws on `productToDelete.id` before any request is made. The model treats that like a failed request.

Points of the code worth knowing:

- A load of an empty list leaves `nextId` unchanged (`Home.jsx:22`). It is 1 on first mount only because that is its initial value (`Home.jsx:14`).
- The edit save tests truthiness, so a numeric price of `0` is rejected (`Home.jsx:77`).
- A failed admin delete is only logged (`Home.jsx:108-110`).

## Model

| member | source | states |
|---|---|---|
| ProductList.MaxId | src/pages/Home.jsx:24 | The largest id of a non-empty list bounds every listed id and is carried by some product. |
| ProductList.FirstIndex | src/pages/Home.jsx:70 | Gives the position of the first product with the id. No earlier product has it. The result is the length when no product has it. |
| ProductList.FindById | src/pages/Home.jsx:70 | `find` gives nothing exactly when no product has the id. Otherwise it gives the first product with that id. |
| ProductList.ReplaceById | src/pages/Home.jsx:87-89 | The length is kept. Every position whose id equals the record's id holds the record, and every other position is unchanged. |
| ProductList.RemoveById | src/pages/Home.jsx:106 | No survivor has the id, and the list never grows. |
| ProductList.RemoveContents | src/pages/Home.jsx:106 | Each product without the id keeps its multiplicity, and products with the id have none left. |
| ProductList.ReplaceKeepsIds | src/pages/Home.jsx:87-89 | Replacing by id never changes the id at any position. |
| ProductList.ReplaceIdempotent | src/pages/Home.jsx:87-89 | Saving the same returned record twice equals saving it once. |
| ProductList.ReplaceMissingIsIdentity | src/pages/Home.jsx:87-89 | A returned record whose id is not listed leaves the list unchanged. |
| ProductList.RemoveDistributes | src/pages/Home.jsx:106 | Filtering a concatenation concatenates the filtered parts, so survivors keep their original order. |
| ProductList.RemoveMissingIsIdentity | src/pages/Home.jsx:106 | Removing an id that no product carries leaves the list unchanged. |
| ProductList.RemoveIdempotent | src/pages/Home.jsx:106 | A second removal of the same id changes nothing. |
| AdminScreen.Load | src/pages/Home.jsx:17-30 | A failed fetch changes nothing. A successful fetch replaces the list and touches nothing else but the candidate id. An empty list keeps the id. A non-empty one sets it to one past the largest id, so it is above every id. |
| AdminScreen.SetAddModal | src/pages/Home.jsx:125-154 | The open button and the close button set only the add-modal flag. |
| AdminScreen.NewDraftChange | src/pages/Home.jsx:139-151 | An add-form input changes only its own draft field. |
| AdminScreen.AddRequest | src/pages/Home.jsx:39-45 | A POST is sent exactly when title, price and image are all non-empty. It carries the candidate id and the draft's fields. |
| AdminScreen.AddProduct | src/pages/Home.jsx:38-66 | An incomplete draft or a failed POST changes nothing. Success appends exactly the server's record after the unchanged old entries. It also adds 1 to the candidate id whatever id came back, empties the draft, closes the modal and leaves the rest alone. |
| AdminScreen.OpenEdit | src/pages/Home.jsx:69-73 | Opens the edit modal with a draft. The draft's id is the requested id exactly when some product has it. The draft copies the first such product, or is empty when none is listed. |
| AdminScreen.CloseEdit | src/pages/Home.jsx:183 | Closing the edit modal keeps the draft and everything else. |
| AdminScreen.EditChange | src/pages/Home.jsx:114-117 | Sets only the named draft field to the typed text. The id and the other fields are kept; with no draft they are absent. |
| AdminScreen.SaveRequest | src/pages/Home.jsx:76-85 | A PUT is sent exactly when a draft exists and its three fields are truthy. Its body is that draft. |
| AdminScreen.SaveEdit | src/pages/Home.jsx:76-98 | No draft, a falsy field or a failed PUT changes nothing. Success replaces every entry with the returned id and keeps the other entries and the length. It also drops the draft and closes the modal. |
| AdminScreen.AskDelete | src/pages/Home.jsx:220-223 | A row's delete button records its id and opens the confirmation. Nothing else changes. |
| AdminScreen.CancelDelete | src/pages/Home.jsx:194 | Cancelling closes the confirmation and changes nothing else, the list included. |
| AdminScreen.ConfirmDelete | src/pages/Home.jsx:101-111 | A failed DELETE changes nothing. Success closes the confirmation and keeps, in their original order, exactly the products without the pending id. With no pending id the list is kept as it is. |
| AdminScreen.LoadMakesFresh | src/pages/Home.jsx:22-25 | After any successful load the candidate id is above every listed id. |
| AdminScreen.AddRequestIdIsNew | src/pages/Home.jsx:41 | The id sent with a new product is strictly above every listed id. |
| AdminScreen.AddKeepsFreshIff | src/pages/Home.jsx:55-58 | After a successful add, the candidate id stays above every id if and only if the server's id is at most the proposed one. |
| AdminScreen.SaveEditKeepsFresh | src/pages/Home.jsx:87-89 | Saving an edit keeps the candidate id above every listed id. |
| AdminScreen.ConfirmDeleteKeepsFresh | src/pages/Home.jsx:106 | Deleting keeps the candidate id above every listed id. |
| AdminScreen.AskThenCancelKeepsList | src/pages/Home.jsx:194 | Asking to delete and then cancelling leaves the list and the other modals unchanged. |
| AdminScreen.AskThenConfirmRemoves | src/pages/Home.jsx:101-111 | Asking and then confirming removes the id from both parts of the list, keeping their order. The id is no longer listed. |
| AdminScreen.ReopenThenSaveRequest | src/pages/Home.jsx:69-77 | In any list, reopening the first product with a given id and saving at once sends a PUT exactly when its title, price and image are truthy. A numeric price of 0 blocks it, and an echoed text price "0" passes. |
| AdminScreen.EmptyBackendThenAdd | src/pages/Home.jsx:14-59 | With an empty backend the first load gives an empty table and candidate id 1. The first complete add sends id 1 and ends with exactly the echoed record and candidate id 2. |
| Cart.CartTotal | src/pages/Products.jsx:63-66 | The total of lines with non-negative prices and quantities is non-negative. |
| Cart.LineSubtotals | src/pages/Products.jsx:94-96 | There is one displayed subtotal per line, in cart order, and each is that line's price times quantity. |
| Cart.TotalIsSumOfLines | src/pages/Products.jsx:63-66 | The left-fold total equals the sum of the displayed line subtotals. |
| Cart.TotalAppend | src/pages/Products.jsx:63-66 | Appending a line adds exactly its price times quantity to the total. |
| Cart.TotalConcat | src/pages/Products.jsx:63-66 | The total of two carts laid end to end is the sum of their totals. |
| Cart.ComputeCartTotal | src/pages/Products.jsx:63-66 | The item-by-item accumulation from 0 yields the sum of the line subtotals. |
| Cart.BadgeCountsLinesNotUnits | src/pages/Products.jsx:74 | One line of two units shows a badge of 1 while the units sum to 2 and the total is 1000. |
| Cart.CountAtMostUnits | src/pages/Products.jsx:74 | For every cart whose lines hold at least one unit, the badge is at most the number of units. It equals that number exactly when every line holds one unit. |
| Cart.CatalogWellFormed | src/pages/Products.jsx:7-12 | The fixed catalog has distinct ids and positive whole-number prices. |
| CartScreen.ToggleCart | src/pages/Products.jsx:59-61 | Toggling flips the dropdown's visibility and keeps the modal and the pending line. |
| CartScreen.InitialConfirmDispatchesNothing | src/pages/Products.jsx:17-19 | On first render nothing is pending, so a confirm sends no request, dispatches nothing and leaves the screen as it was. |
| CartScreen.ToggleTwice | src/pages/Products.jsx:59-61 | Toggling twice restores the original screen state. |
| CartScreen.AddToCart | src/pages/Products.jsx:22-34 | Adding dispatches exactly one add of the product. The UI state is kept whether or not the POST succeeds. |
| CartScreen.Increment | src/pages/Products.jsx:36-38 | The "+" button dispatches exactly one increment of the line's id. |
| CartScreen.Decrement | src/pages/Products.jsx:40-42 | The "-" button dispatches exactly one decrement of the line's id. |
| CartScreen.AskRemove | src/pages/Products.jsx:116-119 | A line's delete button records the whole line and opens the confirmation. |
| CartScreen.CancelRemove | src/pages/Products.jsx:165 | Cancelling closes the modal and dispatches nothing. The pending line and the dropdown are kept. |
| CartScreen.RemoveRequest | src/pages/Products.jsx:48 | A DELETE is sent exactly when a line is pending, and its path id is that line's id. |
| CartScreen.ConfirmRemove | src/pages/Products.jsx:44-57 | A successful DELETE dispatches exactly the removal of the pending id, closes the modal and clears the pending line. A failure, or nothing pending, dispatches nothing and leaves the modal open. |
| CartScreen.AskThenConfirmRemovesThatId | src/pages/Products.jsx:44-57 | Confirming right after choosing a line removes exactly that line's id and clears the modal state. |
| CartScreen.AskThenCancelDispatchesNothing | src/pages/Products.jsx:165 | Choosing a line and then cancelling dispatches nothing and closes the modal. |

## Left out

- HTTP calls (`fetch`, `axios`), `alert` and console logging are I/O. Server responses are parameters, and a thrown request is a branch with no state change.
- The shared cart store's reducers (`addItem`, `removeItem`, `incrementQuantity`, `decrementQuantity`) are not part of this model. So merging duplicate adds and any floor on decrement are not stated, and dispatched actions are opaque values.
- `parseFloat` and floating-point prices are not modelled. The POST body keeps the price as the input's text. Record prices are whole numbers or echoed text, and cart lines carry whole-number prices, as the catalog does.
- Server replies are assumed to be well-formed product records, or lists of them. `fetch` does not throw on an HTTP error status, so the source acts on an error body in three ways, none of which the model represents:
  - A GET error body replaces the whole `products` value (`Home.jsx:20-21`). When it is not an array, `data.length > 0` is false, so `nextId` is kept, and rendering the table's `products.map` (`Home.jsx:209`) then throws.
  - A POST error body is appended as a product (`Home.jsx:55-56`).
  - A PUT error body with no id replaces no entry, yet the draft is still dropped and the edit modal closed (`Home.jsx:86-91`). This is the outcome `SaveEdit` gives for an echo whose id is not listed (`ReplaceMissingIsIdentity`).
- Ids, `nextId`, prices and quantities are JavaScript numbers (IEEE doubles); the model uses unbounded integers. The two agree only below 2^53 (`Number.MAX_SAFE_INTEGER` + 1). At or above it `maxId + 1` and `nextId + 1` round back to the same value (`Home.jsx:25`, `Home.jsx:58`), and large products and sums in the cart total round.
- AdminScreen.Load: its "one past the largest id" clause holds for the source only while the largest loaded id is below 2^53, because `maxId + 1` is exact only there.
- AdminScreen.LoadMakesFresh: holds for the source only while every loaded id is below 2^53.
- AdminScreen.AddRequestIdIsNew: holds for the source only while every increment of `nextId` so far was exact, so `nextId` is at most 2^53. Beyond it, a POST can carry an id that is already listed.
- AdminScreen.AddKeepsFreshIff: holds for the source only while `nextId` is below 2^53, so that `nextId + 1` is exact.
- Cart.CartTotal: the totals equal the integer sums only while every product and partial sum stays below 2^53. The same bound applies to Cart.TotalIsSumOfLines, Cart.TotalAppend, Cart.TotalConcat and Cart.ComputeCartTotal.
- The storefront's POST of a product added to the cart is not modelled as a request value. Its outcome only decides whether an alert fires.
- The admin DELETE request's path is not modelled as a value. With no pending id it targets `null` and does not affect the list.
- JSX rendering, CSS, carousel imports and the routing in `src/App.jsx` are pure wiring.
- Overlapping asynchronous requests are not modelled. Each handler's response is applied to the state it started from.

=== FILE: admin_screen.dfy ===
/**
 The admin product-management screen (src/pages/Home.jsx) as a state
 record and one pure transition per event handler. Every network response
 is a parameter: `None` (or `false`) is a request that threw, whose catch
 block only logs, so the state is left as it was.
 */
module AdminScreen {
  import opened Common
  import opened ProductList

  /** The add form: three text inputs, so every value is a string. */
  datatype NewDraft = NewDraft(title: string, price: string, image: string)

  const EmptyNewDraft := NewDraft("", "", "")

  /** The `name` attribute of an edit-form input. */
  datatype FieldName = Title | Price | Image

  /** A value held by the edit draft. The draft starts as a copy of a listed
      record, whose price is a number or an echoed text, and each keystroke
      stores the input's text; a property the copied object lacks is `Absent`. */
  datatype Field = Absent | Text(text: string) | Number(n: int)

  /** JavaScript truthiness of a draft value: `undefined`, `""` and `0` are falsy. */
  predicate Present(f: Field) {
    match f
    case Absent => false
    case Text(s) => s != ""
    case Number(n) => n != 0
  }

  /** The edit draft: a shallow copy of a product (or of nothing). */
  datatype EditDraft = EditDraft(id: Option<int>, title: Field, price: Field, image: Field)

  const EmptyEditDraft := EditDraft(None, Absent, Absent, Absent)

  /** The component's `useState` slots. */
  datatype State = State(
    products: seq<Product>,
    nextId: int,
    newDraft: NewDraft,
    editDraft: Option<EditDraft>,
    showAdd: bool,
    showEdit: bool,
    showDelete: bool,
    pendingDelete: Option<int>)

  /** The POST body of a new product; the price is still the input's text. */
  datatype NewProductBody = NewProductBody(id: int, title: string, price: string, image: string)

  /** State on first mount. */
  function Initial(): (s: State) {
    State([], 1, EmptyNewDraft, None, false, false, false, None)
  }

  /** The candidate id is above every listed id. */
  predicate Fresh(s: State) {
    forall i :: 0 <= i < |s.products| ==> s.products[i].id < s.nextId
  }

  predicate NewDraftComplete(d: NewDraft) {
    d.title != "" && d.price != "" && d.image != ""
  }

  predicate EditDraftComplete(d: EditDraft) {
    Present(d.title) && Present(d.price) && Present(d.image)
  }

  /** `fetchProducts`: a successful GET replaces the list; a non-empty list
      moves the candidate id just past its largest id. */
  function Load(s: State, response: Option<seq<Product>>): (r: State)
    ensures response.None? ==> r == s
    ensures response.Some? ==> r == s.(products := response.value, nextId := r.nextId)
    ensures response.Some? && |response.value| == 0 ==> r.nextId == s.nextId
    ensures response.Some? && |response.value| > 0 ==> Fresh(r) && HasId(r.products, r.nextId - 1)
  {
    match response
    case None => s
    case Some(data) =>
      if |data| > 0 then s.(products := data, nextId := MaxId(data) + 1)
      else s.(products := data)
  }

  /** The "Agregar Producto" button and the add modal's "Cerrar" button. */
  function SetAddModal(s: State, open: bool): (r: State)
    ensures r.showAdd == open && r == s.(showAdd := r.showAdd)
  {
    s.(showAdd := open)
  }

  /** `onChange` of one add-form input: only the named field changes. */
  function NewDraftChange(s: State, name: FieldName, value: string): (r: State)
    ensures r == s.(newDraft := r.newDraft)
    ensures name == Title ==> r.newDraft == s.newDraft.(title := value)
    ensures name == Price ==> r.newDraft == s.newDraft.(price := value)
    ensures name == Image ==> r.newDraft == s.newDraft.(image := value)
  {
    var d := s.newDraft;
    match name
    case Title => s.(newDraft := d.(title := value))
    case Price => s.(newDraft := d.(price := value))
    case Image => s.(newDraft := d.(image := value))
  }

  /** The request `handleAddProduct` sends, if validation lets it send one. */
  function AddRequest(s: State): (r: Option<NewProductBody>)
    ensures r.Some? <==> NewDraftComplete(s.newDraft)
    ensures r.Some? ==> r.value.id == s.nextId
    ensures r.Some? ==> r.value.title == s.newDraft.title && r.value.price == s.newDraft.price
                        && r.value.image == s.newDraft.image
  {
    var d := s.newDraft;
    if d.title != "" && d.price != "" && d.image != "" then
      Some(NewProductBody(s.nextId, d.title, d.price, d.image))
    else
      None
  }

  /** `handleAddProduct` once the POST has answered with `response`. An
      incomplete draft (alert) or a failed request changes nothing; success
      appends the server's record, clears the form, advances the candidate
      id by one whatever id the server chose, and closes the modal. */
  function AddProduct(s: State, response: Option<Product>): (r: State)
    ensures !NewDraftComplete(s.newDraft) ==> r == s
    ensures response.None? ==> r == s
    ensures NewDraftComplete(s.newDraft) && response.Some? ==>
              && |r.products| == |s.products| + 1
              && r.products[..|s.products|] == s.products
              && r.products[|s.products|] == response.value
              && r.nextId == s.nextId + 1
              && r.newDraft == EmptyNewDraft
              && !r.showAdd
              && r == s.(products := r.products, nextId := r.nextId, newDraft := r.newDraft, showAdd := false)
  {
    if AddRequest(s).Some? && response.Some? then
      s.(products := s.products + [response.value],
         newDraft := EmptyNewDraft,
         nextId := s.nextId + 1,
         showAdd := false)
    else
      s
  }

  /** A record's price as the draft holds it after the copy. */
  function PriceField(v: PriceValue): (f: Field) {
    match v
    case NumericPrice(n) => Number(n)
    case TextPrice(t) => Text(t)
  }

  /** `{ ...productToEdit }` of a found or missing (`undefined`) product. */
  function DraftOf(found: Option<Product>): (d: EditDraft) {
    match found
    case None => EmptyEditDraft
    case Some(p) => EditDraft(Some(p.id), Text(p.title), PriceField(p.price), Text(p.image))
  }

  /** `handleEditProduct(id)`: copies the first product with `id` into the
      draft and opens the edit modal. */
  function OpenEdit(s: State, id: int): (r: State)
    ensures r == s.(editDraft := r.editDraft, showEdit := true)
    ensures r.editDraft.Some?
    ensures r.editDraft.value.id == Some(id) <==> HasId(s.products, id)
    ensures !HasId(s.products, id) ==> r.editDraft == Some(EmptyEditDraft)
    ensures HasId(s.products, id) ==>
              var p := s.products[FirstIndex(s.products, id)];
              r.editDraft == Some(EditDraft(Some(p.id), Text(p.title), PriceField(p.price), Text(p.image)))
  {
    s.(editDraft := Some(DraftOf(FindById(s.products, id))), showEdit := true)
  }

  /** The edit modal's "Cerrar" button: the draft is kept. */
  function CloseEdit(s: State): (r: State)
    ensures !r.showEdit && r == s.(showEdit := false)
  {
    s.(showEdit := false)
  }

  /** `handleEditChange`: `{ ...editProduct, [name]: value }`. Spreading a
      `null` draft yields an empty object, so only the named field is set. */
  function EditChange(s: State, name: FieldName, value: string): (r: State)
    ensures r == s.(editDraft := r.editDraft)
    ensures r.editDraft.Some?
    ensures var before := if s.editDraft.Some? then s.editDraft.value else EmptyEditDraft;
            var after := r.editDraft.value;
            && after.id == before.id
            && after.title == (if name == Title then Text(value) else before.title)
            && after.price == (if name == Price then Text(value) else before.price)
            && after.image == (if name == Image then Text(value) else before.image)
  {
    var d := match s.editDraft case Some(d) => d case None => EmptyEditDraft;
    var d' := match name
      case Title => d.(title := Text(value))
      case Price => d.(price := Text(value))
      case Image => d.(image := Text(value));
    s.(editDraft := Some(d'))
  }

  /** The PUT `handleSaveEditProduct` sends (its body is the draft), if any. */
  function SaveRequest(s: State): (r: Option<EditDraft>)
    ensures r.Some? <==> s.editDraft.Some? && EditDraftComplete(s.editDraft.value)
    ensures r.Some? ==> r == s.editDraft
  {
    match s.editDraft
    case Some(d) => if Present(d.title) && Present(d.price) && Present(d.image) then Some(d) else None
    case None => None
  }

  /** `handleSaveEditProduct` once the PUT has answered with `response`. A
      missing draft or field (alert) or a failed request changes nothing;
      success replaces every product carrying the returned record's id,
      drops the draft and closes the modal. */
  function SaveEdit(s: State, response: Option<Product>): (r: State)
    ensures SaveRequest(s).None? ==> r == s
    ensures response.None? ==> r == s
    ensures SaveRequest(s).Some? && response.Some? ==>
              var u := response.value;
              && |r.products| == |s.products|
              && (forall i :: 0 <= i < |s.products| && s.products[i].id == u.id ==> r.products[i] == u)
              && (forall i :: 0 <= i < |s.products| && s.products[i].id != u.id ==> r.products[i] == s.products[i])
              && r == s.(products := r.products, editDraft := None, showEdit := false)
  {
    if SaveRequest(s).Some? && response.Some? then
      s.(products := ReplaceById(s.products, response.value), editDraft := None, showEdit := false)
    else
      s
  }

  /** A row's "Eliminar" button: remembers the id and opens the confirmation. */
  function AskDelete(s: State, id: int): (r: State)
    ensures r.pendingDelete == Some(id) && r.showDelete
    ensures r == s.(pendingDelete := r.pendingDelete, showDelete := r.showDelete)
  {
    s.(pendingDelete := Some(id), showDelete := true)
  }

  /** The confirmation's "Cancelar" button: closes it, the pending id stays. */
  function CancelDelete(s: State): (r: State)
    ensures !r.showDelete && r == s.(showDelete := false)
  {
    s.(showDelete := false)
  }

  /** `handleDeleteProduct` once the DELETE has answered (`ok`) or thrown.
      Success drops exactly the products with the pending id and closes the
      confirmation; with no pending id the filter compares against `null`
      and keeps every product. Failure changes nothing. */
  function ConfirmDelete(s: State, ok: bool): (r: State)
    ensures !ok ==> r == s
    ensures ok ==> r == s.(products := r.products, showDelete := false)
    ensures ok ==> forall p :: multiset(r.products)[p] ==
                              (if Some(p.id) == s.pendingDelete then 0 else multiset(s.products)[p])
    ensures ok && s.pendingDelete.Some? ==>
              forall i :: 0 <= i < |r.products| ==> r.products[i].id != s.pendingDelete.value
    ensures ok && s.pendingDelete.None? ==> r.products == s.products
    ensures ok && s.pendingDelete.Some? ==> r.products == RemoveById(s.products, s.pendingDelete.value)
  {
    if !ok then s
    else
      match s.pendingDelete
      case None => s.(showDelete := false)
      case Some(id) =>
        RemoveContents(s.products, id);
        s.(products := RemoveById(s.products, id), showDelete := false)
  }

  /** After any successful load the candidate id is fresh. */
  lemma LoadMakesFresh(s: State, data: seq<Product>)
    ensures Fresh(Load(s, Some(data)))
  {
  }

  /** The id sent with a new product is strictly above every listed id. */
  lemma AddRequestIdIsNew(s: State)
    requires Fresh(s) && AddRequest(s).Some?
    ensures forall i :: 0 <= i < |s.products| ==> s.products[i].id < AddRequest(s).value.id
  {
  }

  /** A successful add keeps the candidate id fresh exactly when the server's
      id is not above the id the client proposed: the candidate id advances by
      one whatever the server returns. */
  lemma AddKeepsFreshIff(s: State, added: Product)
    requires Fresh(s) && NewDraftComplete(s.newDraft)
    ensures Fresh(AddProduct(s, Some(added))) <==> added.id <= s.nextId
  {
  }

  /** Replacing by id leaves the set of ids as it was, so freshness holds. */
  lemma SaveEditKeepsFresh(s: State, response: Option<Product>)
    requires Fresh(s)
    ensures Fresh(SaveEdit(s, response))
  {
  }

  /** Deleting only removes products, so freshness holds. */
  lemma ConfirmDeleteKeepsFresh(s: State, ok: bool)
    requires Fresh(s)
    ensures Fresh(ConfirmDelete(s, ok))
  {
  }

  /** Asking to delete and then cancelling leaves the list and every modal
      but the confirmation as they were. */
  lemma AskThenCancelKeepsList(s: State, id: int)
    ensures CancelDelete(AskDelete(s, id)) == s.(pendingDelete := Some(id), showDelete := false)
  {
  }

  /** A confirmed delete of a listed id removes it and keeps the others in order. */
  lemma AskThenConfirmRemoves(s: State, id: int, a: seq<Product>, b: seq<Product>)
    requires s.products == a + b
    ensures ConfirmDelete(AskDelete(s, id), true).products == RemoveById(a, id) + RemoveById(b, id)
    ensures !HasId(ConfirmDelete(AskDelete(s, id), true).products, id)
  {
    RemoveDistributes(a, b, id);
  }

  /** On first mount with an empty backend the table is empty and the
      candidate id is 1, so the first add sends id 1; the single row it
      leaves is whatever record the server echoes, whatever its id. */
  lemma EmptyBackendThenAdd(title: string, price: string, image: string, echoed: Product)
    requires title != "" && price != "" && image != ""
    ensures var loaded := Load(Initial(), Some([]));
            && loaded.products == [] && loaded.nextId == 1
            && var typed := loaded.(newDraft := NewDraft(title, price, image));
               && AddRequest(typed) == Some(NewProductBody(1, title, price, image))
               && AddProduct(typed, Some(echoed)).products == [echoed]
               && AddProduct(typed, Some(echoed)).nextId == 2
  {
  }

  /** Reopening a product for editing and saving it straight away sends a PUT
      exactly when its title, price and image are truthy. A numeric price of
      0 blocks the save, while a price the server echoed back as the text
      "0" passes. */
  lemma ReopenThenSaveRequest(s: State, p: Product)
    requires HasId(s.products, p.id) && s.products[FirstIndex(s.products, p.id)] == p
    ensures SaveRequest(OpenEdit(s, p.id)).Some? <==>
              p.title != "" && p.image != "" && Present(PriceField(p.price))
    ensures p.title != "" && p.image != "" && p.price == NumericPrice(0) ==>
              SaveRequest(OpenEdit(s, p.id)).None?
    ensures p.title != "" && p.image != "" && p.price == TextPrice("0") ==>
              SaveRequest(OpenEdit(s, p.id)).Some?
  {
  }
}

=== FILE: cart.dfy ===
/**
 The storefront's fixed catalog and the values the cart screen derives from
 the cart (src/pages/Products.jsx): the per-line subtotal, the total and
 the badge count. The cart itself belongs to the shared store, whose
 reducers are not part of this model, so a cart here is any sequence of
 items the store may hold.
 */
module Cart {

  /** A catalog entry; this screen names the display field `name`. */
  datatype CatalogProduct = CatalogProduct(id: int, name: string, price: int, image: string)

  /** The hard-coded catalog, with its whole-number prices. */
  const InitialProducts: seq<CatalogProduct> := [
    CatalogProduct(1, "Anillo de Oro 18k", 500, "/images/anillo.jpg"),
    CatalogProduct(2, "Cadena de Oro 18k", 700, "/images/cadena.jpg"),
    CatalogProduct(3, "Reloj de Diamantes", 2000, "/images/reloj.jpg"),
    CatalogProduct(4, "Manilla de Oro 18k", 400, "/images/manilla.jpg")
  ]

  /** A cart line: a catalog product plus the quantity the store keeps. */
  datatype CartItem = CartItem(id: int, name: string, price: int, image: string, quantity: int)

  /** `item.price * item.quantity`, shown on each cart line. */
  function Subtotal(item: CartItem): (s: int) {
    item.price * item.quantity
  }

  predicate NonNegativeLines(cart: seq<CartItem>) {
    forall i :: 0 <= i < |cart| ==> cart[i].price >= 0 && cart[i].quantity >= 0
  }

  /** `cart.reduce((total, item) => total + item.price * item.quantity, 0)`:
      a left fold, so the last item is added last. */
  function CartTotal(cart: seq<CartItem>): (t: int)
    ensures NonNegativeLines(cart) ==> t >= 0
  {
    if |cart| == 0 then 0
    else
      var init := cart[..|cart| - 1];
      assert forall i :: 0 <= i < |init| ==> init[i] == cart[i];
      CartTotal(init) + Subtotal(cart[|cart| - 1])
  }

  /** The subtotals the cart lines display, in cart order. */
  function LineSubtotals(cart: seq<CartItem>): (r: seq<int>)
    ensures |r| == |cart|
    ensures forall i :: 0 <= i < |cart| ==> r[i] == cart[i].price * cart[i].quantity
  {
    seq(|cart|, i requires 0 <= i < |cart| => Subtotal(cart[i]))
  }

  /** The sum of a list of amounts, first element first: the reference
      definition the fold is compared with. */
  function SumLines(xs: seq<int>): (s: int) {
    if |xs| == 0 then 0 else xs[0] + SumLines(xs[1..])
  }

  /** The badge next to the cart button: the number of lines. */
  function CartCount(cart: seq<CartItem>): (n: nat) {
    |cart|
  }

  /** The sum of all quantities, which the badge does not show. */
  function QuantitySum(cart: seq<CartItem>): (n: int) {
    if |cart| == 0 then 0 else cart[0].quantity + QuantitySum(cart[1..])
  }

  /** Summing from the front splits over a concatenation. */
  lemma {:induction false} SumLinesAppend(xs: seq<int>, ys: seq<int>)
    ensures SumLines(xs + ys) == SumLines(xs) + SumLines(ys)
  {
    if |xs| == 0 {
      assert xs + ys == ys;
    } else {
      assert (xs + ys)[1..] == xs[1..] + ys;
      SumLinesAppend(xs[1..], ys);
    }
  }

  /** The displayed total equals the sum of the displayed line subtotals. */
  lemma {:induction false} TotalIsSumOfLines(cart: seq<CartItem>)
    ensures CartTotal(cart) == SumLines(LineSubtotals(cart))
  {
    if |cart| > 0 {
      var init := cart[..|cart| - 1];
      var last := cart[|cart| - 1];
      TotalIsSumOfLines(init);
      assert LineSubtotals(cart) == LineSubtotals(init) + [Subtotal(last)];
      SumLinesAppend(LineSubtotals(init), [Subtotal(last)]);
    }
  }

  /** Appending an item adds exactly its subtotal to the total. */
  lemma TotalAppend(cart: seq<CartItem>, item: CartItem)
    ensures CartTotal(cart + [item]) == CartTotal(cart) + item.price * item.quantity
  {
  }

  /** The total of two carts laid end to end is the sum of their totals. */
  lemma {:induction false} TotalConcat(a: seq<CartItem>, b: seq<CartItem>)
    ensures CartTotal(a + b) == CartTotal(a) + CartTotal(b)
  {
    if |b| == 0 {
      assert a + b == a;
    } else {
      var init := b[..|b| - 1];
      var last := b[|b| - 1];
      assert b == init + [last];
      assert a + b == (a + init) + [last];
      TotalConcat(a, init);
      TotalAppend(a + init, last);
      TotalAppend(init, last);
    }
  }

  /** The loop form of `CartTotal`: the same `reduce`, accumulated one item
      at a time from the front, checked against the reference sum of the
      displayed line subtotals. */
  method ComputeCartTotal(cart: seq<CartItem>) returns (total: int)
    ensures total == SumLines(LineSubtotals(cart))
  {
    total := 0;
    var i := 0;
    while i < |cart|
      invariant 0 <= i <= |cart|
      invariant total == CartTotal(cart[..i])
    {
      TotalAppend(cart[..i], cart[i]);
      assert cart[..i + 1] == cart[..i] + [cart[i]];
      total := total + cart[i].price * cart[i].quantity;
      i := i + 1;
    }
    assert cart[..i] == cart;
    TotalIsSumOfLines(cart);
  }

  /** The badge counts lines, not units: one line of two units shows 1. */
  lemma BadgeCountsLinesNotUnits()
    ensures var cart := [CartItem(1, "Anillo de Oro 18k", 500, "/images/anillo.jpg", 2)];
            CartCount(cart) == 1 && QuantitySum(cart) == 2 && CartTotal(cart) == 1000
  {
  }

  /** For carts whose lines hold at least one unit each, the badge never
      exceeds the number of units, and equals it exactly when every line
      holds a single unit. */
  lemma {:induction false} CountAtMostUnits(cart: seq<CartItem>)
    requires forall i :: 0 <= i < |cart| ==> cart[i].quantity >= 1
    ensures CartCount(cart) <= QuantitySum(cart)
    ensures CartCount(cart) == QuantitySum(cart) <==> forall i :: 0 <= i < |cart| ==> cart[i].quantity == 1
  {
    if |cart| > 0 {
      assert forall i :: 1 <= i < |cart| ==> cart[i] == cart[1..][i - 1];
      CountAtMostUnits(cart[1..]);
    }
  }

  /** The catalog's ids are distinct and its prices positive. */
  lemma CatalogWellFormed()
    ensures forall i, j :: 0 <= i < j < |InitialProducts| ==> InitialProducts[i].id != InitialProducts[j].id
    ensures forall i :: 0 <= i < |InitialProducts| ==> InitialProducts[i].price > 0
  {
  }
}

=== FILE: cart_screen.dfy ===
/**
 The storefront's own UI state (src/pages/Products.jsx): the cart
 dropdown's visibility, the remove-confirmation modal and the line waiting
 to be removed. Each handler returns the new UI state together with the
 store actions it dispatches; the store's reducers are not modelled, so an
 action is only a value naming what was requested.
 */
module CartScreen {
  import opened Common
  import opened Cart

  /** An action dispatched to the shared cart store. */
  datatype CartAction =
    | AddItem(product: CatalogProduct)
    | RemoveItem(id: int)
    | IncrementQuantity(id: int)
    | DecrementQuantity(id: int)

  /** The component's `useState` slots. */
  datatype Screen = Screen(showCart: bool, showDelete: bool, pending: Option<CartItem>)

  /** A handler's effect: the next UI state and the actions dispatched, in order. */
  datatype Step = Step(screen: Screen, dispatched: seq<CartAction>)

  /** First render: dropdown and confirmation closed, nothing pending. */
  function Initial(): (s: Screen) {
    Screen(false, false, None)
  }

  /** `toggleCart`: flips the dropdown, nothing else. */
  function ToggleCart(s: Screen): (r: Screen)
    ensures r.showCart != s.showCart
    ensures r.showDelete == s.showDelete && r.pending == s.pending
  {
    s.(showCart := !s.showCart)
  }

  /** `handleAddProduct(product)`: the add is dispatched before the POST and
      stays whatever the POST does; a failed POST only raises an alert. */
  function AddToCart(s: Screen, product: CatalogProduct, postOk: bool): (r: Step)
    ensures r.screen == s
    ensures r.dispatched == [AddItem(product)]
  {
    Step(s, [AddItem(product)])
  }

  /** The "+" button of a cart line. */
  function Increment(s: Screen, id: int): (r: Step)
    ensures r.screen == s && r.dispatched == [IncrementQuantity(id)]
  {
    Step(s, [IncrementQuantity(id)])
  }

  /** The "-" button of a cart line. */
  function Decrement(s: Screen, id: int): (r: Step)
    ensures r.screen == s && r.dispatched == [DecrementQuantity(id)]
  {
    Step(s, [DecrementQuantity(id)])
  }

  /** A cart line's "Eliminar" button: remembers the whole line and opens
      the confirmation. */
  function AskRemove(s: Screen, item: CartItem): (r: Screen)
    ensures r.pending == Some(item) && r.showDelete && r.showCart == s.showCart
  {
    s.(pending := Some(item), showDelete := true)
  }

  /** The confirmation's "Cancelar" button: closes it and dispatches nothing;
      the pending line is kept. */
  function CancelRemove(s: Screen): (r: Step)
    ensures r.dispatched == []
    ensures !r.screen.showDelete
    ensures r.screen.showCart == s.showCart && r.screen.pending == s.pending
  {
    Step(s.(showDelete := false), [])
  }

  /** The id in the DELETE request's path. With nothing pending, reading
      `productToDelete.id` throws before any request is made. */
  function RemoveRequest(s: Screen): (r: Option<int>)
    ensures r.Some? <==> s.pending.Some?
    ensures r.Some? ==> r.value == s.pending.value.id
  {
    match s.pending
    case Some(item) => Some(item.id)
    case None => None
  }

  /** `handleDeleteProduct` once the DELETE has answered (`deleteOk`) or
      thrown. Success dispatches the removal of the pending line's id, closes
      the modal and forgets the line; failure, including the throw when
      nothing is pending, dispatches nothing and leaves the modal open. */
  function ConfirmRemove(s: Screen, deleteOk: bool): (r: Step)
    ensures RemoveRequest(s).Some? && deleteOk ==>
              && r.dispatched == [RemoveItem(RemoveRequest(s).value)]
              && !r.screen.showDelete
              && r.screen.pending == None
              && r.screen.showCart == s.showCart
    ensures RemoveRequest(s).None? || !deleteOk ==> r == Step(s, [])
  {
    match s.pending
    case Some(item) =>
      if deleteOk then Step(Screen(s.showCart, false, None), [RemoveItem(item.id)]) else Step(s, [])
    case None => Step(s, [])
  }

  /** Right after the first render nothing is pending, so confirming a
      removal throws before any request: nothing is dispatched and the
      screen stays as it was, whatever the server would have said. */
  lemma InitialConfirmDispatchesNothing(ok: bool)
    ensures RemoveRequest(Initial()).None?
    ensures ConfirmRemove(Initial(), ok) == Step(Initial(), [])
  {
  }

  /** Toggling twice restores the dropdown. */
  lemma ToggleTwice(s: Screen)
    ensures ToggleCart(ToggleCart(s)) == s
  {
  }

  /** Confirming the removal of a line removes exactly that line's id. */
  lemma AskThenConfirmRemovesThatId(s: Screen, item: CartItem)
    ensures ConfirmRemove(AskRemove(s, item), true)
            == Step(Screen(s.showCart, false, None), [RemoveItem(item.id)])
  {
  }

  /** Asking and then cancelling dispatches nothing and leaves the modal closed. */
  lemma AskThenCancelDispatchesNothing(s: Screen, item: CartItem)
    ensures CancelRemove(AskRemove(s, item)) == Step(Screen(s.showCart, false, Some(item)), [])
  {
  }
}

=== FILE: common.dfy ===
/**
 Shared helper types for the storefront model.
 */
module Common {

  /** A value that may be missing: JavaScript's `null`/`undefined` for a
      state slot, or a network call whose response never arrived. */
  datatype Option<+T> = None | Some(value: T)
}

=== FILE: product_list.dfy ===
/**
 The product list of the admin screen (src/pages/Home.jsx) and the pure
 list operations its handlers apply to it: the largest id (`Math.max` over
 the ids), the first product with a given id (`Array.find`), replacement by
 id (`Array.map`) and removal by id (`Array.filter`).
 */
module ProductList {
  import opened Common

  /** A record's price: a whole number of currency units, or the text an
      edit sent (the edit input stores text) that the server echoed back. */
  datatype PriceValue = NumericPrice(amount: int) | TextPrice(text: string)

  /** A product record as the backend returns it; ids are the backend's
      integer identifiers. */
  datatype Product = Product(id: int, title: string, price: PriceValue, image: string)

  /** True iff some product in `ps` carries `id`. */
  predicate HasId(ps: seq<Product>, id: int) {
    exists i :: 0 <= i < |ps| && ps[i].id == id
  }

  /** The largest id in a non-empty list: it bounds every id and is one of them. */
  function MaxId(ps: seq<Product>): (m: int)
    requires |ps| > 0
    ensures forall i :: 0 <= i < |ps| ==> ps[i].id <= m
    ensures HasId(ps, m)
  {
    if |ps| == 1 then
      ps[0].id
    else
      var rest := MaxId(ps[1..]);
      assert forall i :: 1 <= i < |ps| ==> ps[i] == ps[1..][i - 1];
      if ps[0].id >= rest then ps[0].id else rest
  }

  /** Index of the first product with `id`, or |ps| when there is none. */
  function FirstIndex(ps: seq<Product>, id: int): (k: nat)
    ensures k <= |ps|
    ensures forall j :: 0 <= j < k ==> ps[j].id != id
    ensures k < |ps| ==> ps[k].id == id
  {
    if |ps| == 0 then 0
    else if ps[0].id == id then 0
    else 1 + FirstIndex(ps[1..], id)
  }

  /** `products.find(p => p.id === id)`: the first product with that id,
      or None (JavaScript's `undefined`) when no product has it. */
  function FindById(ps: seq<Product>, id: int): (r: Option<Product>)
    ensures r.None? <==> !HasId(ps, id)
    ensures r.Some? ==> r.value.id == id && r.value in ps
    ensures r.Some? ==> var k := FirstIndex(ps, id); k < |ps| && r.value == ps[k]
  {
    var k := FirstIndex(ps, id);
    if k < |ps| then Some(ps[k]) else None
  }

  /** `products.map(p => p.id === u.id ? u : p)`: every product whose id is
      `u.id` becomes `u`; every other product stays where it was. */
  function ReplaceById(ps: seq<Product>, u: Product): (r: seq<Product>)
    ensures |r| == |ps|
    ensures forall i :: 0 <= i < |ps| ==> r[i] == (if ps[i].id == u.id then u else ps[i])
  {
    if |ps| == 0 then []
    else [if ps[0].id == u.id then u else ps[0]] + ReplaceById(ps[1..], u)
  }

  /** `products.filter(p => p.id !== id)`: keeps, in order, every product
      whose id differs from `id`. */
  function RemoveById(ps: seq<Product>, id: int): (r: seq<Product>)
    ensures |r| <= |ps|
    ensures forall i :: 0 <= i < |r| ==> r[i].id != id
  {
    if |ps| == 0 then []
    else (if ps[0].id == id then [] else [ps[0]]) + RemoveById(ps[1..], id)
  }

  /** Removal keeps every product without the id as often as it occurred,
      and no product with the id. */
  lemma {:induction false} RemoveContents(ps: seq<Product>, id: int)
    ensures forall p :: multiset(RemoveById(ps, id))[p] == if p.id == id then 0 else multiset(ps)[p]
  {
    if |ps| > 0 {
      RemoveContents(ps[1..], id);
      assert ps == [ps[0]] + ps[1..];
      assert multiset(ps) == multiset{ps[0]} + multiset(ps[1..]);
    }
  }

  /** Replacement leaves every position's id as it was. */
  lemma ReplaceKeepsIds(ps: seq<Product>, u: Product)
    ensures forall i :: 0 <= i < |ps| ==> ReplaceById(ps, u)[i].id == ps[i].id
  {
  }

  /** Saving the same record twice is the same as saving it once. */
  lemma ReplaceIdempotent(ps: seq<Product>, u: Product)
    ensures ReplaceById(ReplaceById(ps, u), u) == ReplaceById(ps, u)
  {
  }

  /** A record whose id is not listed changes nothing. */
  lemma ReplaceMissingIsIdentity(ps: seq<Product>, u: Product)
    requires !HasId(ps, u.id)
    ensures ReplaceById(ps, u) == ps
  {
  }

  /** Filtering commutes with concatenation, so the survivors keep their
      original relative order. */
  lemma {:induction false} RemoveDistributes(a: seq<Product>, b: seq<Product>, id: int)
    ensures RemoveById(a + b, id) == RemoveById(a, id) + RemoveById(b, id)
  {
    if |a| == 0 {
      assert a + b == b;
    } else {
      var head := if a[0].id == id then [] else [a[0]];
      assert (a + b)[0] == a[0];
      assert (a + b)[1..] == a[1..] + b;
      RemoveDistributes(a[1..], b, id);
      assert RemoveById(a + b, id) == head + RemoveById(a[1..] + b, id);
      assert RemoveById(a, id) == head + RemoveById(a[1..], id);
    }
  }

  /** Removing an id that is not listed changes nothing. */
  lemma {:induction false} RemoveMissingIsIdentity(ps: seq<Product>, id: int)
    requires !HasId(ps, id)
    ensures RemoveById(ps, id) == ps
  {
    if |ps| > 0 {
      assert !HasId(ps[1..], id) by {
        forall i | 0 <= i < |ps[1..]|
          ensures ps[1..][i].id != id
        {
          assert ps[1..][i] == ps[i + 1];
        }
      }
      RemoveMissingIsIdentity(ps[1..], id);
      assert ps == [ps[0]] + ps[1..];
    }
  }

  /** A second removal of the same id finds nothing left to remove. */
  lemma RemoveIdempotent(ps: seq<Product>, id: int)
    ensures RemoveById(RemoveById(ps, id), id) == RemoveById(ps, id)
  {
    RemoveMissingIsIdentity(RemoveById(ps, id), id);
  }
}
